=== FILE: README.md ===
# FutureTasks task list, modelled in Dafny

FutureTasks is a single-page to-do list. Its class `FutureTodoApp` keeps an
ordered array of task records and changes it in response to user actions:

- add a task (new tasks go first);
- edit a task in a dialog;
- toggle a task between pending and completed;
- delete a task;
- drag a task to a new place.

The page shows the array through a search box, status tabs and category
buttons. A dashboard shows totals and a completion rate, and there is a
dark/light theme switch.

This project models that in-memory logic as pure functions over
`seq<Task>` and proves what each operation does. Every value the code reads
from the page becomes a parameter: the input text, the selects, the date
input, `editingTaskId`, the drop target's id, the filter tab, the category
and the query. So do the values it takes from the clock (`Date.now()` for
the id, `toISOString()` for the timestamps).

Modules, one per concern:

- `Wrappers` — `Option` (for `null`) and `Result`.
- `Text` — `trim` (with ECMAScript's whitespace set written out), an ASCII `toLowerCase`, and `includes`.
- `Seqs` — `Array.prototype.filter` and the order-preserving subsequence relation.
- `Tasks` — the `Task` record, `findIndex`, and the unique-id and completion-stamp predicates.
- `Store` — add, edit, toggle, delete and drag reorder.
- `Invariants` — shows that each operation keeps ids unique and `completedAt` consistent.
- `Query` — the search → status → category pipeline of `getFilteredTasks`.
- `Stats` — the dashboard numbers.
- `Theme` — the theme switch.
- `App` — the view state around the list: the constructor, the search box, the edit dialog's open/save/close flow, import, and two concrete scenarios.

Add, edit and toggle return early without changing the list on bad input.
For these three the model returns a `Result`: `Failure(EmptyText)` or
`Failure(NotFound)` in the early-return case. The list after the call is
then `r.GetOr(tasks)`. The code warns the user on `EmptyText` and is silent
on `NotFound`. Reorder with a dragged id that no task carries also returns
early, and `Store.ReorderTasks` then returns the list itself. Delete with
an unknown id removes nothing.

Behaviour of `script.js` worth knowing:

- Edit checks the text before it looks up the task. So an empty text
  reports `EmptyText` even when the id is unknown, and an unknown id with a
  valid text changes nothing and leaves the dialog open.
- Toggle and edit change only the first task with the id (`Array.find`).
  Delete removes every task with the id (`filter`).
- Reorder with a target id that is missing from the rest of the list is
  not a no-op. `findIndex` gives -1, and `splice(-1, 0, task)` inserts the
  task before the last one. The model uses JavaScript `splice` index rules
  (`Store.SpliceStart`). So dropping a task onto itself when its id is
  unique also lands it second to last, although the page never does this:
  it excludes the dragged element from the drop targets.
- Priority, category, filter mode and theme are compared as plain strings.
  The model keeps them as strings, and an unknown filter mode shows every
  task.

## Model

| member | source | states |
|---|---|---|
| Text.Trim | script.js:190 | the trimmed text has no whitespace at either end and is at most as long as the input |
| Text.TrimIsCut | script.js:190 | trim removes only whitespace, and only from the two ends: the result is a contiguous piece of the input with only whitespace around it |
| Text.TrimEmptyIff | script.js:190-196 | the trimmed text is empty exactly when every input character is whitespace, both directions |
| Text.TrimIdempotent | script.js:247 | trimming twice gives the same as trimming once |
| Text.LowerIdempotent | script.js:53 | lower-casing an already lower-cased query changes nothing |
| Text.Lower | script.js:53 | the result has the input's length; each ASCII capital becomes its lower-case letter (code point + 32), every other character is kept, so no capital is left |
| Text.IncludesIff | script.js:351-352 | the left-to-right scan used for `includes` holds exactly when the needle occurs at some position of the text |
| Seqs.Filter | script.js:280 | a filter keeps exactly the accepted elements, in their original order, and is never longer than its input |
| Seqs.FilterMultiset | script.js:280 | a filter keeps every occurrence of an accepted element and none of a rejected one |
| Seqs.FilterFilter | script.js:345-375 | filtering by p and then by q equals filtering once by "p and q" |
| Seqs.FilterConcat | script.js:280 | filtering distributes over concatenation |
| Seqs.SubsequenceTransitive | script.js:345-375 | a subsequence of a subsequence is a subsequence, so chained filter stages keep store order |
| Tasks.FindIndex | script.js:557-558 | returns none exactly when no task has the id; otherwise the index of the first task with that id |
| Store.AddTask | script.js:185-209 | refuses exactly the all-whitespace inputs with EmptyText; otherwise one task longer, the old list as tail, and a head with the given id, the trimmed non-empty text, pending, no completedAt, the selected priority and category, due date null for an empty input, createdAt = now |
| Store.SaveEditedTask | script.js:246-258 | all-whitespace text refused first with EmptyText; then NotFound exactly when editingTaskId is null or matches no task; otherwise only the first matching task changes, only in text (trimmed), priority, category and due date, and every other task is untouched |
| Store.ToggleTask | script.js:290-295 | NotFound exactly for an unknown id; otherwise the first matching task has completed flipped, completedAt set exactly when it is now completed (to now), every other field and every other task unchanged |
| Store.ToggleTwice | script.js:294-295 | toggling twice restores completed; a task that started pending has completedAt null again, one that started completed carries the second timestamp; other tasks untouched |
| Store.ToggleTwicePendingRestores | script.js:294-295 | for a pending task with no completedAt, toggling twice gives back exactly the original list |
| Store.DeleteTask | script.js:280 | the result holds exactly the tasks whose id differs, each as often as before, in original relative order |
| Store.DeleteUnique | script.js:280 | with unique ids, delete removes exactly the one task carrying the id |
| Store.DeleteAbsent | script.js:280 | deleting an id no task has leaves the list unchanged |
| Store.SpliceStart | script.js:568 | splice start index: negative counts from the end (0 when that is still negative), a start past the end gives the length, in-range values are used as given |
| Store.ReorderTasks | script.js:556-572 | no-op when the dragged id is absent; otherwise a permutation (same length, same multiset) in which the dragged task sits at some position whose removal gives the input with the dragged task removed |
| Store.ReorderToEnd | script.js:569-570 | with no drop target the dragged task ends up last and the others keep their order |
| Store.ReorderBeforeTarget | script.js:565-568 | with a target present in the remaining list the dragged task sits immediately before the first task carrying the target id, and the tasks before and after it are the remaining list in its order |
| Store.ReorderMissingTarget | script.js:566-568 | as written, a target missing from the remaining list puts the dragged task second to last, in front of the previously last task, and the tasks before it keep their order |
| Invariants.AddKeepsValid | script.js:198-209 | adding with an id no task carries keeps ids unique and completedAt set exactly on completed tasks |
| Invariants.EditKeepsValid | script.js:253-258 | editing keeps ids unique and completion stamps consistent |
| Invariants.ToggleKeepsValid | script.js:291-295 | toggling keeps ids unique and completion stamps consistent |
| Invariants.DeleteKeepsValid | script.js:280 | deleting keeps ids unique and completion stamps consistent |
| Invariants.ReorderKeepsValid | script.js:556-572 | reordering keeps ids unique and completion stamps consistent |
| Invariants.FilterKeepsUnique | script.js:280 | a filtered list of a list with unique ids has unique ids |
| Query.FilteredTasks | script.js:345-375 | the shown list is an order-preserving subsequence of the store and holds exactly the tasks that match the query (skipped when empty) on lower-cased text or category, the status tab (completed / pending / high priority; any other tab keeps all) and the category (all or exact match) |
| Query.FilteredIsOneFilter | script.js:345-375 | the three-stage pipeline equals a single filter by the combined visibility test, so duplicates and store order are kept |
| Query.ShowAll | script.js:345-375 | with tab "all", category "all" and an empty query the page shows the whole store in store order |
| Stats.FilterCountsCompleted | script.js:433 | the length of the completed-filtered list equals a one-by-one count of completed tasks |
| Stats.RoundPercent | script.js:435 | the rounded percentage is at most 100 and is the nearest integer to part/whole·100, halves rounding up |
| Stats.ComputeStats | script.js:431-435 | total is the list length, completed is the count of completed tasks, completed + pending = total, rate 0 for an empty list, rate at most 100 and the round-half-up of the exact percentage otherwise |
| Stats.OneTaskStats | script.js:431-435 | a one-task list shows 1 total with 1 completed, 0 pending and 100%, or 0 completed, 1 pending and 0%, as the task is completed or not |
| Stats.RateExtremes | script.js:435 | the rate is 100 when there are tasks and all are completed, and 0 when none is completed |
| Stats.StatsAfterToggle | script.js:431-435 | completing a task raises completed by one and lowers pending by one, reopening does the reverse; the total stays |
| Stats.StatsAfterAdd | script.js:198-212 | a successful add raises total and pending by one and leaves completed unchanged |
| Theme.LoadTheme | script.js:36-38 | a missing or empty stored theme yields "dark"; any other stored value is used as is |
| Theme.ToggleTheme | script.js:160-161 | the result is always "dark" or "light", and it is "light" exactly when the current theme is "dark" |
| Theme.ToggleThemeTwice | script.js:161 | on "dark" and "light" toggling twice is the identity; from any value one toggle reaches that two-state cycle |
| App.NewApp | script.js:3-14 | a new app holds exactly the stored list, starts with tab "all", category "all" and an empty query (so it shows the whole list), has no edit dialog open, and uses the loaded theme |
| App.SetSearch | script.js:52-55 | the search box stores the lower-cased input (no upper-case ASCII left, lowering again changes nothing) and touches nothing else |
| App.BeginEdit | script.js:224-228 | opening the editor records the id only for an existing task; an unknown id changes nothing |
| App.CloseEdit | script.js:268-272 | closing the editor clears editingTaskId and changes nothing else |
| App.SaveEdit | script.js:246-266 | the list becomes what the store's edit gives, or stays on refusal; the app is unchanged exactly when the edit is refused (all-whitespace text, no open dialog, or an id no task has, the dialog then staying open); a successful save closes the dialog; nothing but the list and editingTaskId ever changes |
| App.EditUnchangedIsIdentity | script.js:224-258 | opening a task in the editor and saving the fields as populated leaves the list unchanged and closes the dialog |
| App.ImportTasks | script.js:708-724 | the list is replaced exactly when the parsed file is an array, and then by that array; otherwise the app is unchanged |
| App.AddShowsNewTaskFirst | script.js:198-211 | after a valid add the unfiltered view starts with the new pending task, followed by the previous view |
| App.MilkScenario | script.js:185-212 | from an empty list, adding "Buy milk" gives stats 1/0/1/0%, and completing it gives 1/1/0/100% |
| App.WorkCategoryScenario | script.js:369-372 | with one "work" and one "personal" task, the "work" category shows exactly the "work" task, in either store order |

## Left out

- DOM and rendering: `renderTasks` and `createTaskHTML` build HTML, and the modal, the `setActive*` helpers, event delegation and keyboard shortcuts only wire the page to the operations. The model has the operations and the view state.
- Animations and timers: `animateNumber`, `createCelebrationEffect`, `shakeElement`, `showToast`, `animateOnLoad` and `animateTaskAdd` only change the page. The 500 ms delay before delete changes the array is not modelled: delete acts at once.
- Delete's guard: `deleteTask` acts only when the task's element is on the page. The model deletes whether or not the task is shown, since the id always comes from a rendered element.
- Drag geometry: `getDragAfterElement` and the placeholders use `getBoundingClientRect` and floating-point offsets. The model takes the chosen target's id as a parameter.
- Persistence: `loadTasks`, `saveTasks`, `saveTheme` and the `window.futureTasks` fallback are `localStorage` and `JSON` calls. `importTasks` is modelled over an abstract parsed value (`App.Parsed`), not over JSON text.
- Export: `exportTasks` only serialises the list with `JSON.stringify` and downloads it. It is not modelled, so the model makes no claim that an exported file imports back to the same list.
- App.ImportTasks: the source replaces the list with any array, even one whose items are not task records. The model's array holds `Task` values, so it cannot express malformed items.
- Clocks and dates: ids and timestamps are opaque parameters. `isOverdue` and the inline overdue test at `script.js:396` compare a due date with the current date, and `formatDate` formats a date string. All three are display-only.
- The sample tasks the page seeds into an empty store at start-up are fixed demo data with clock-derived ids. They are not modelled.
- Text.Lower: lowers only the ASCII letters A–Z. JavaScript `toLowerCase` covers all of Unicode.
- Stats.RoundPercent: uses exact rationals. The source computes `Math.round` on a floating-point quotient, which can differ by float error at exact halves: for 23 completed of 40 the page shows 57% (`0.575 * 100` is `57.49999999999999` in double precision) where the model gives 58%.
- Stats.ComputeStats: its completion rate goes through Stats.RoundPercent and carries the same idealisation at exact halves.
- Invariants.AddKeepsValid: requires that the new id is not already in use. `Date.now()` does not guarantee this, so unique ids are a requirement here, not something the code maintains.

=== FILE: app.dfy ===
/** The state of `FutureTodoApp` with the page stripped away: the task list
    and the view settings the event handlers keep next to it. */
module App {
  import opened Wrappers
  import opened Text
  import opened Tasks
  import opened Store
  import opened Query
  import opened Stats
  import opened Theme

  datatype App = App(
    tasks: seq<Task>,
    currentFilter: string,
    currentCategory: string,
    searchQuery: string,
    editingTaskId: Option<int>,
    theme: string)

  /** The constructor: the stored list (empty when there is none), every
      filter at "all", no query, no dialog open, the stored theme. */
  function NewApp(stored: seq<Task>, storedTheme: Option<string>): (app: App)
    ensures app.tasks == stored
    ensures app.currentFilter == "all" && app.currentCategory == "all" && app.searchQuery == ""
    ensures VisibleTasks(app) == stored
    ensures app.editingTaskId.None?
    ensures app.theme == LoadTheme(storedTheme)
  {
    ShowAll(stored);
    App(stored, "all", "all", "", None, LoadTheme(storedTheme))
  }

  /** What `renderTasks` shows. */
  function VisibleTasks(app: App): seq<Task> {
    FilteredTasks(app.tasks, app.currentFilter, app.currentCategory, app.searchQuery)
  }

  /** The search box handler keeps the lower-cased input as the query. */
  function SetSearch(app: App, input: string): (a: App)
    ensures a.(searchQuery := app.searchQuery) == app
    ensures a.searchQuery == Lower(input)
    ensures |a.searchQuery| == |input|
    ensures forall i :: 0 <= i < |input| ==> !('A' <= a.searchQuery[i] <= 'Z')
    ensures Lower(a.searchQuery) == a.searchQuery
  {
    LowerIdempotent(input);
    app.(searchQuery := Lower(input))
  }

  /** `editTask`: open the dialog for a task that exists; an unknown id
      does nothing. */
  function BeginEdit(app: App, id: int): (a: App)
    ensures HasId(app.tasks, id) ==> a.editingTaskId == Some(id)
    ensures !HasId(app.tasks, id) ==> a == app
    ensures a.(editingTaskId := app.editingTaskId) == app
  {
    if FindIndex(app.tasks, id).Some? then app.(editingTaskId := Some(id)) else app
  }

  /** `closeEditModal`. */
  function CloseEdit(app: App): (a: App)
    ensures a.editingTaskId.None?
    ensures a.(editingTaskId := app.editingTaskId) == app
  {
    app.(editingTaskId := None)
  }

  /** `saveEditedTask` with the dialog's field values: a successful save
      updates the list and closes the dialog; a refused one leaves the dialog
      open and the state as it was. */
  function SaveEdit(app: App, input: string, priority: string, category: string,
                    dueDateInput: string): (a: App)
    ensures AllWhitespace(input) ==> a == app
    ensures app.editingTaskId.None? ==> a == app
    ensures a != app ==> a.editingTaskId.None?
    ensures a.(tasks := app.tasks, editingTaskId := app.editingTaskId) == app
    ensures a.tasks
      == SaveEditedTask(app.tasks, app.editingTaskId, input, priority, category, dueDateInput).GetOr(app.tasks)
    ensures a == app
      <==> SaveEditedTask(app.tasks, app.editingTaskId, input, priority, category, dueDateInput).Failure?
  {
    match SaveEditedTask(app.tasks, app.editingTaskId, input, priority, category, dueDateInput)
    case Success(tasks) => CloseEdit(app.(tasks := tasks))
    case Failure(_) => app
  }

  /** Opening the dialog on a task and saving without touching a field
      leaves the list as it was (for a task whose text is already trimmed and
      whose due date, if any, is not the empty string, as the add and edit
      paths guarantee). */
  lemma EditUnchangedIsIdentity(app: App, id: int)
    requires HasId(app.tasks, id)
    requires var t := app.tasks[FindIndex(app.tasks, id).value];
      && t.text != "" && !IsWhitespace(t.text[0]) && !IsWhitespace(t.text[|t.text| - 1])
      && t.dueDate != Some("")
    ensures var t := app.tasks[FindIndex(app.tasks, id).value];
      var a := SaveEdit(BeginEdit(app, id), t.text, t.priority, t.category, t.dueDate.GetOr(""));
      a.tasks == app.tasks && a.editingTaskId.None?
  {
    var i := FindIndex(app.tasks, id).value;
    var t := app.tasks[i];
    TrimOfTrimmed(t.text);
    TrimEmptyIff(t.text);
    var r := SaveEditedTask(app.tasks, Some(id), t.text, t.priority, t.category, t.dueDate.GetOr(""));
    assert r.Success?;
    assert r.value[i] == t;
    assert r.value == app.tasks;
  }

  /** What `JSON.parse` gave the import handler: it threw, it produced
      something other than an array, or it produced an array (whose items
      are taken to be task records). */
  datatype Parsed = Unparsable | NotArray | TaskArray(items: seq<Task>)

  /** `importTasks`: only an array replaces the list; anything else is
      reported and changes nothing. */
  function ImportTasks(app: App, parsed: Parsed): (r: Result<App, Parsed>)
    ensures r.Success? <==> parsed.TaskArray?
    ensures r.Success? ==> r.value == app.(tasks := parsed.items)
  {
    if parsed.TaskArray? then Success(app.(tasks := parsed.items)) else Failure(parsed)
  }

  /** After an add, the full unfiltered view starts with the new task. */
  lemma AddShowsNewTaskFirst(tasks: seq<Task>, input: string, priority: string, category: string,
                             dueDateInput: string, id: int, now: string)
    requires !AllWhitespace(input)
    ensures var r := AddTask(tasks, input, priority, category, dueDateInput, id, now);
      var shown := FilteredTasks(r.value, "all", "all", "");
      && |shown| == |tasks| + 1
      && shown[0].id == id && shown[0].text == Trim(input) && !shown[0].completed
      && shown[1..] == FilteredTasks(tasks, "all", "all", "")
  {
  }

  /** Starting empty, adding "Buy milk" gives 1 total, 0 completed, 1
      pending, 0%; completing it gives 1, 1, 0, 100%. */
  lemma MilkScenario(id: int, t0: string, t1: string)
    ensures var added := AddTask([], "Buy milk", "high", "personal", "", id, t0);
      && added.Success?
      && ComputeStats(added.value) == Dashboard(1, 0, 1, 0)
      && ComputeStats(Toggled(added.value, id, t1)) == Dashboard(1, 1, 0, 100)
  {
    var text := "Buy milk";
    TrimOfTrimmed(text);
    TrimEmptyIff(text);
    var r := AddTask([], text, "high", "personal", "", id, t0);
    assert r.Success?;
    var added := r.value;
    assert added == [Task(id, text, false, "high", "personal", None, t0, None)];
    OneTaskStats(added[0]);
    var done := Toggled(added, id, t1);
    assert done == [Task(id, text, true, "high", "personal", None, t0, Some(t1))];
    OneTaskStats(done[0]);
  }

  /** With one "work" and one "personal" task, the "work" category shows
      exactly the "work" task. */
  lemma WorkCategoryScenario(work: Task, personal: Task)
    requires work.category == "work" && personal.category == "personal"
    ensures FilteredTasks([work, personal], "all", "work", "") == [work]
    ensures FilteredTasks([personal, work], "all", "work", "") == [work]
  {
    FilteredIsOneFilter([work, personal], "all", "work", "");
    FilteredIsOneFilter([personal, work], "all", "work", "");
    assert [work, personal][1..] == [personal];
    assert [personal, work][1..] == [work];
  }
}

=== FILE: invariants.dfy ===
/** Two properties of a task list the code never checks but keeps when its
    inputs allow: ids are unique, and `completedAt` is set exactly on the
    completed tasks. Uniqueness needs a fresh id for every add, which
    `Date.now()` does not guarantee, so it is a requirement here. */
module Invariants {
  import opened Wrappers
  import opened Seqs
  import opened Tasks
  import opened Store

  predicate Valid(tasks: seq<Task>) {
    UniqueIds(tasks) && AllStamped(tasks)
  }

  /** A successful add with an id no task carries keeps the list valid. */
  lemma AddKeepsValid(tasks: seq<Task>, input: string, priority: string, category: string,
                      dueDateInput: string, id: int, now: string)
    requires Valid(tasks) && !HasId(tasks, id)
    ensures Valid(AddTask(tasks, input, priority, category, dueDateInput, id, now).GetOr(tasks))
  {
    var r := AddTask(tasks, input, priority, category, dueDateInput, id, now);
    if r.Success? {
      var s := r.value;
      forall i, j | 0 <= i < j < |s|
        ensures s[i].id != s[j].id
      {
        if i == 0 {
          assert s[j] == tasks[j - 1];
        } else {
          assert s[i] == tasks[i - 1] && s[j] == tasks[j - 1];
        }
      }
      forall i | 0 <= i < |s|
        ensures Stamped(s[i])
      {
        if i > 0 {
          assert s[i] == tasks[i - 1];
        }
      }
    }
  }

  /** Editing keeps ids and completion state, so the list stays valid. */
  lemma EditKeepsValid(tasks: seq<Task>, editingTaskId: Option<int>, input: string,
                       priority: string, category: string, dueDateInput: string)
    requires Valid(tasks)
    ensures Valid(SaveEditedTask(tasks, editingTaskId, input, priority, category, dueDateInput).GetOr(tasks))
  {
    var r := SaveEditedTask(tasks, editingTaskId, input, priority, category, dueDateInput);
    if r.Success? {
      var i := FindIndex(tasks, editingTaskId.value).value;
      assert forall k :: 0 <= k < |tasks| ==> r.value[k].id == tasks[k].id;
      assert forall k :: 0 <= k < |tasks| ==> Stamped(r.value[k]);
    }
  }

  /** Toggling keeps ids and stamps the toggled task consistently. */
  lemma ToggleKeepsValid(tasks: seq<Task>, id: int, now: string)
    requires Valid(tasks)
    ensures Valid(Toggled(tasks, id, now))
  {
    var r := ToggleTask(tasks, id, now);
    if r.Success? {
      assert forall k :: 0 <= k < |tasks| ==> r.value[k].id == tasks[k].id;
      assert forall k :: 0 <= k < |tasks| ==> Stamped(r.value[k]);
    }
  }

  /** A filtered list of a list with unique ids has unique ids. */
  lemma {:induction false} FilterKeepsUnique(tasks: seq<Task>, p: Task -> bool)
    requires UniqueIds(tasks)
    ensures UniqueIds(Filter(tasks, p))
  {
    if |tasks| > 0 {
      var rest := Filter(tasks[1..], p);
      FilterKeepsUnique(tasks[1..], p);
      if p(tasks[0]) {
        var s := Filter(tasks, p);
        assert s == [tasks[0]] + rest;
        forall j | 0 < j < |s|
          ensures s[0].id != s[j].id
        {
          assert s[j] in tasks[1..];
        }
      }
    }
  }

  /** Deleting keeps the list valid. */
  lemma DeleteKeepsValid(tasks: seq<Task>, id: int)
    requires Valid(tasks)
    ensures Valid(DeleteTask(tasks, id))
  {
    FilterKeepsUnique(tasks, (t: Task) => t.id != id);
    var r := DeleteTask(tasks, id);
    forall i | 0 <= i < |r|
      ensures Stamped(r[i])
    {
      assert r[i] in tasks;
    }
  }

  /** Reordering moves one task and keeps the list valid. */
  lemma ReorderKeepsValid(tasks: seq<Task>, draggedId: int, target: Option<int>)
    requires Valid(tasks)
    ensures Valid(ReorderTasks(tasks, draggedId, target))
  {
    var r := ReorderTasks(tasks, draggedId, target);
    forall i | 0 <= i < |r|
      ensures Stamped(r[i])
    {
      assert r[i] in multiset(tasks);
    }
    if HasId(tasks, draggedId) {
      var i := FindIndex(tasks, draggedId).value;
      var k :| 0 <= k < |r| && r[k] == tasks[i] && RemoveAt(r, k) == RemoveAt(tasks, i);
      RemoveAtUnique(tasks, i);
      UniqueAround(r, k);
    }
  }

  /** Removing a task from a list with unique ids leaves unique ids, none of
      them the removed task's. */
  lemma RemoveAtUnique(s: seq<Task>, i: nat)
    requires UniqueIds(s) && i < |s|
    ensures UniqueIds(RemoveAt(s, i))
    ensures forall j :: 0 <= j < |s| - 1 ==> RemoveAt(s, i)[j].id != s[i].id
  {
    var t := RemoveAt(s, i);
    forall a, b | 0 <= a < b < |t|
      ensures t[a].id != t[b].id
    {
      var a' := if a < i then a else a + 1;
      var b' := if b < i then b else b + 1;
      assert t[a] == s[a'] && t[b] == s[b'];
    }
    forall j | 0 <= j < |t|
      ensures t[j].id != s[i].id
    {
      var j' := if j < i then j else j + 1;
      assert t[j] == s[j'];
    }
  }

  /** A list whose element at `k` has an id the others lack, the others
      having unique ids, has unique ids. */
  lemma UniqueAround(r: seq<Task>, k: nat)
    requires k < |r| && UniqueIds(RemoveAt(r, k))
    requires forall j :: 0 <= j < |r| - 1 ==> RemoveAt(r, k)[j].id != r[k].id
    ensures UniqueIds(r)
  {
    var t := RemoveAt(r, k);
    forall a, b | 0 <= a < b < |r|
      ensures r[a].id != r[b].id
    {
      if a == k {
        assert r[b] == t[b - 1];
      } else if b == k {
        assert r[a] == t[a];
      } else {
        var a' := if a < k then a else a - 1;
        var b' := if b < k then b else b - 1;
        assert r[a] == t[a'] && r[b] == t[b'];
      }
    }
  }
}

=== FILE: query.dfy ===
/** `getFilteredTasks`: the list the page shows, obtained from the store by a
    search, then a status filter, then a category filter. */
module Query {
  import opened Text
  import opened Seqs
  import opened Tasks

  /** The search step's test. `query` is already lower-cased, since the
      search box lower-cases what the user types before storing it. */
  predicate MatchesSearch(t: Task, query: string) {
    Includes(Lower(t.text), query) || Includes(Lower(t.category), query)
  }

  /** The status tabs: "completed", "pending" and "high" each test one
      field; any other value shows every task. */
  predicate MatchesStatus(t: Task, mode: string) {
    && (mode == "completed" ==> t.completed)
    && (mode == "pending" ==> !t.completed)
    && (mode == "high" ==> t.priority == "high")
  }

  /** The category buttons: "all" shows every task, anything else only the
      tasks in exactly that category. */
  predicate MatchesCategory(t: Task, category: string) {
    category == "all" || t.category == category
  }

  /** Whether a task is on screen, as one condition. An empty query matches
      every task. */
  predicate Visible(t: Task, mode: string, category: string, query: string) {
    && (query == "" || MatchesSearch(t, query))
    && MatchesStatus(t, mode)
    && MatchesCategory(t, category)
  }

  function SearchStage(tasks: seq<Task>, query: string): seq<Task> {
    if query != "" then Filter(tasks, (t: Task) => MatchesSearch(t, query)) else tasks
  }

  function StatusStage(tasks: seq<Task>, mode: string): seq<Task> {
    if mode == "completed" then Filter(tasks, (t: Task) => t.completed)
    else if mode == "pending" then Filter(tasks, (t: Task) => !t.completed)
    else if mode == "high" then Filter(tasks, (t: Task) => t.priority == "high")
    else tasks
  }

  function CategoryStage(tasks: seq<Task>, category: string): seq<Task> {
    if category != "all" then Filter(tasks, (t: Task) => t.category == category) else tasks
  }

  /** The three stages in the code's order. The result keeps the store's
      order and holds exactly the visible tasks; the store itself is an
      input and is not changed. */
  function FilteredTasks(tasks: seq<Task>, mode: string, category: string, query: string)
    : (r: seq<Task>)
    ensures IsSubsequence(r, tasks)
    ensures forall t :: t in r <==> t in tasks && Visible(t, mode, category, query)
  {
    var searched := SearchStage(tasks, query);
    var statused := StatusStage(searched, mode);
    var r := CategoryStage(statused, category);
    SubsequenceReflexive(tasks);
    SubsequenceReflexive(searched);
    SubsequenceReflexive(statused);
    SubsequenceTransitive(statused, searched, tasks);
    SubsequenceTransitive(r, statused, tasks);
    r
  }

  /** The visibility test as a function value. */
  function VisibleIn(mode: string, category: string, query: string): Task -> bool {
    (t: Task) => Visible(t, mode, category, query)
  }

  /** The pipeline is one filter by the visibility test: every visible task
      is shown, as often as it occurs, in store order. */
  lemma {:induction false} FilteredIsOneFilter(tasks: seq<Task>, mode: string, category: string, query: string)
    ensures FilteredTasks(tasks, mode, category, query) == Filter(tasks, VisibleIn(mode, category, query))
  {
    var searched := SearchStage(tasks, query);
    var statused := StatusStage(searched, mode);
    SearchStageIsFilter(tasks, query);
    StatusStageIsFilter(searched, mode);
    CategoryStageIsFilter(statused, category);
    FilterFilter(tasks, SearchTest(query), StatusTest(mode));
    FilterFilter(tasks, Both(SearchTest(query), StatusTest(mode)), CategoryTest(category));
    FilterExtensional(tasks, Both(Both(SearchTest(query), StatusTest(mode)), CategoryTest(category)),
                      VisibleIn(mode, category, query));
  }

  /** Each stage's test as a function value; a stage that is switched off
      accepts every task. */
  function SearchTest(query: string): Task -> bool {
    (t: Task) => query == "" || MatchesSearch(t, query)
  }

  function StatusTest(mode: string): Task -> bool {
    (t: Task) => MatchesStatus(t, mode)
  }

  function CategoryTest(category: string): Task -> bool {
    (t: Task) => MatchesCategory(t, category)
  }

  lemma SearchStageIsFilter(tasks: seq<Task>, query: string)
    ensures SearchStage(tasks, query) == Filter(tasks, SearchTest(query))
  {
    if query == "" {
      FilterKeepsAll(tasks, SearchTest(query));
    } else {
      FilterExtensional(tasks, (t: Task) => MatchesSearch(t, query), SearchTest(query));
    }
  }

  lemma StatusStageIsFilter(tasks: seq<Task>, mode: string)
    ensures StatusStage(tasks, mode) == Filter(tasks, StatusTest(mode))
  {
    if mode == "completed" {
      FilterExtensional(tasks, (t: Task) => t.completed, StatusTest(mode));
    } else if mode == "pending" {
      FilterExtensional(tasks, (t: Task) => !t.completed, StatusTest(mode));
    } else if mode == "high" {
      FilterExtensional(tasks, (t: Task) => t.priority == "high", StatusTest(mode));
    } else {
      FilterKeepsAll(tasks, StatusTest(mode));
    }
  }

  lemma CategoryStageIsFilter(tasks: seq<Task>, category: string)
    ensures CategoryStage(tasks, category) == Filter(tasks, CategoryTest(category))
  {
    if category == "all" {
      FilterKeepsAll(tasks, CategoryTest(category));
    } else {
      FilterExtensional(tasks, (t: Task) => t.category == category, CategoryTest(category));
    }
  }

  /** Filters by predicates that agree everywhere agree. */
  lemma {:induction false} FilterExtensional(tasks: seq<Task>, p: Task -> bool, q: Task -> bool)
    requires forall t :: p(t) == q(t)
    ensures Filter(tasks, p) == Filter(tasks, q)
  {
    if |tasks| > 0 {
      FilterExtensional(tasks[1..], p, q);
    }
  }

  /** With every filter at "all" and no query the page shows the whole
      store in store order. */
  lemma ShowAll(tasks: seq<Task>)
    ensures FilteredTasks(tasks, "all", "all", "") == tasks
  {
  }
}

=== FILE: seqs.dfy ===
/** `Array.prototype.filter` and the order facts the task views depend on. */
module Seqs {

  /** `a` is `b` with some elements left out, the rest in their original order. */
  predicate IsSubsequence<T(==)>(a: seq<T>, b: seq<T>)
    decreases |b|
  {
    && |a| <= |b|
    && (|a| == 0
        || (a[0] == b[0] && IsSubsequence(a[1..], b[1..]))
        || IsSubsequence(a, b[1..]))
  }

  /** Leaving out elements twice is leaving out elements once. */
  lemma {:induction false} SubsequenceTransitive<T>(a: seq<T>, b: seq<T>, c: seq<T>)
    requires IsSubsequence(a, b) && IsSubsequence(b, c)
    ensures IsSubsequence(a, c)
    decreases |c|
  {
    if |a| == 0 {
    } else if IsSubsequence(b, c[1..]) {
      SubsequenceTransitive(a, b, c[1..]);
    } else {
      assert b[0] == c[0] && IsSubsequence(b[1..], c[1..]);
      if a[0] == b[0] && IsSubsequence(a[1..], b[1..]) {
        SubsequenceTransitive(a[1..], b[1..], c[1..]);
      } else {
        SubsequenceTransitive(a, b[1..], c[1..]);
      }
    }
  }

  /** Every sequence is a subsequence of itself. */
  lemma {:induction false} SubsequenceReflexive<T>(a: seq<T>)
    ensures IsSubsequence(a, a)
  {
    if |a| > 0 {
      SubsequenceReflexive(a[1..]);
    }
  }

  /** `s.filter(p)`: the elements of `s` that satisfy `p`, in order, each
      kept as often as it occurs. */
  function Filter<T(==,!new)>(s: seq<T>, p: T -> bool): (r: seq<T>)
    ensures |r| <= |s|
    ensures forall x :: x in r <==> x in s && p(x)
    ensures IsSubsequence(r, s)
  {
    if |s| == 0 then []
    else
      var rest := Filter(s[1..], p);
      if p(s[0]) then [s[0]] + rest else rest
  }

  /** A filter keeps every occurrence of an element it accepts and none of
      an element it rejects. */
  lemma {:induction false} FilterMultiset<T(!new)>(s: seq<T>, p: T -> bool, x: T)
    ensures multiset(Filter(s, p))[x] == if p(x) then multiset(s)[x] else 0
  {
    if |s| > 0 {
      FilterMultiset(s[1..], p, x);
      assert s == [s[0]] + s[1..];
      assert multiset(s) == multiset{s[0]} + multiset(s[1..]);
    }
  }

  /** `FilterMultiset` for every element at once. */
  lemma FilterMultisetAll<T(!new)>(s: seq<T>, p: T -> bool)
    ensures forall x :: multiset(Filter(s, p))[x] == if p(x) then multiset(s)[x] else 0
  {
    forall x {
      FilterMultiset(s, p, x);
    }
  }

  /** The predicate that holds where both `p` and `q` hold. */
  function Both<T(!new)>(p: T -> bool, q: T -> bool): (b: T -> bool)
    ensures forall x :: b(x) <==> p(x) && q(x)
  {
    x => p(x) && q(x)
  }

  /** Filtering by `p` and then by `q` is filtering once by both. */
  lemma {:induction false} FilterFilter<T(!new)>(s: seq<T>, p: T -> bool, q: T -> bool)
    ensures Filter(Filter(s, p), q) == Filter(s, Both(p, q))
  {
    if |s| > 0 {
      FilterFilter(s[1..], p, q);
      if p(s[0]) {
        assert Filter(s, p) == [s[0]] + Filter(s[1..], p);
        assert Filter(s, p)[1..] == Filter(s[1..], p);
      }
    }
  }

  /** A filter that rejects nothing keeps the sequence as it is. */
  lemma {:induction false} FilterKeepsAll<T(!new)>(s: seq<T>, p: T -> bool)
    requires forall i :: 0 <= i < |s| ==> p(s[i])
    ensures Filter(s, p) == s
  {
    if |s| > 0 {
      FilterKeepsAll(s[1..], p);
    }
  }

  /** Filtering distributes over concatenation. */
  lemma {:induction false} FilterConcat<T(!new)>(a: seq<T>, b: seq<T>, p: T -> bool)
    ensures Filter(a + b, p) == Filter(a, p) + Filter(b, p)
  {
    if |a| == 0 {
      assert a + b == b;
    } else {
      var ab := a + b;
      assert ab[0] == a[0];
      assert ab[1..] == a[1..] + b;
      FilterConcat(a[1..], b, p);
      if p(a[0]) {
        calc {
          Filter(ab, p);
          [a[0]] + Filter(a[1..] + b, p);
          [a[0]] + (Filter(a[1..], p) + Filter(b, p));
          ([a[0]] + Filter(a[1..], p)) + Filter(b, p);
          Filter(a, p) + Filter(b, p);
        }
      } else {
        calc {
          Filter(ab, p);
          Filter(a[1..] + b, p);
          Filter(a[1..], p) + Filter(b, p);
          Filter(a, p) + Filter(b, p);
        }
      }
    }
  }

  /** A filter that rejects exactly one element drops just that element. */
  lemma {:induction false} FilterDropsOne<T(!new)>(pre: seq<T>, x: T, post: seq<T>, p: T -> bool)
    requires forall i :: 0 <= i < |pre| ==> p(pre[i])
    requires forall i :: 0 <= i < |post| ==> p(post[i])
    requires !p(x)
    ensures Filter(pre + [x] + post, p) == pre + post
  {
    FilterConcat3(pre, x, post, p);
    FilterRejectsOne(x, p);
    FilterKeepsAll(pre, p);
    FilterKeepsAll(post, p);
    var e: seq<T> := [];
    assert pre + e == pre;
  }

  lemma FilterConcat3<T(!new)>(pre: seq<T>, x: T, post: seq<T>, p: T -> bool)
    ensures Filter(pre + [x] + post, p) == Filter(pre, p) + Filter([x], p) + Filter(post, p)
  {
    FilterConcat(pre + [x], post, p);
    FilterConcat(pre, [x], p);
  }

  lemma FilterRejectsOne<T(!new)>(x: T, p: T -> bool)
    requires !p(x)
    ensures Filter([x], p) == []
  {
  }
}

=== FILE: stats.dfy ===
/** `updateStats`: the four numbers on the dashboard. */
module Stats {
  import opened Seqs
  import opened Tasks
  import opened Store

  datatype Dashboard = Dashboard(total: nat, completed: nat, pending: nat, completionRate: nat)

  /** The number of completed tasks, counted one task at a time. */
  function CountCompleted(tasks: seq<Task>): (n: nat)
    ensures n <= |tasks|
  {
    if |tasks| == 0 then 0
    else (if tasks[0].completed then 1 else 0) + CountCompleted(tasks[1..])
  }

  /** `tasks.filter(task => task.completed).length` counts the same. */
  lemma {:induction false} FilterCountsCompleted(tasks: seq<Task>)
    ensures |Filter(tasks, (t: Task) => t.completed)| == CountCompleted(tasks)
  {
    if |tasks| > 0 {
      FilterCountsCompleted(tasks[1..]);
    }
  }

  /** `Math.round(part / whole * 100)` over exact rationals: the percentage
      rounded to the nearest integer, halves rounded up. */
  function RoundPercent(part: nat, whole: nat): (p: nat)
    requires 0 < whole && part <= whole
    ensures p <= 100
    ensures 2 * whole * p <= 200 * part + whole < 2 * whole * p + 2 * whole
  {
    var p := (200 * part + whole) / (2 * whole);
    assert 2 * whole * p <= 200 * part + whole < 2 * whole * p + 2 * whole;
    assert 200 * part + whole < 2 * whole * 101 by {
      assert 200 * part <= 200 * whole;
    }
    PercentBound(p, whole);
    p
  }

  lemma PercentBound(p: nat, whole: nat)
    requires 0 < whole && 2 * whole * p < 2 * whole * 101
    ensures p <= 100
  {
    if p > 100 {
      MulMono(2 * whole, 101, p);
    }
  }

  /** Multiplying by a natural number keeps order. */
  lemma MulMono(z: nat, x: nat, y: nat)
    requires x <= y
    ensures z * x <= z * y
  {
    var d: nat := y - x;
    assert z * y == z * x + z * d;
  }

  /** The dashboard numbers: pending is the rest of the total, and the
      completion rate is 0 for an empty list and otherwise the nearest
      whole percentage of completed tasks. */
  function ComputeStats(tasks: seq<Task>): (s: Dashboard)
    ensures s.total == |tasks|
    ensures s.completed == CountCompleted(tasks)
    ensures s.completed + s.pending == s.total
    ensures s.total == 0 ==> s.completionRate == 0
    ensures s.completionRate <= 100
    ensures s.total > 0 ==>
      2 * s.total * s.completionRate <= 200 * s.completed + s.total < 2 * s.total * s.completionRate + 2 * s.total
  {
    var total := |tasks|;
    FilterCountsCompleted(tasks);
    var completed := |Filter(tasks, (t: Task) => t.completed)|;
    var rate := if total > 0 then RoundPercent(completed, total) else 0;
    Dashboard(total, completed, total - completed, rate)
  }

  /** With tasks present and all of them completed the rate is 100; with
      none completed it is 0. (Rounding can also reach 100 with a task still
      pending, from 200 tasks on, as 199 of 200 does, and 0 with a task
      completed, from 201 tasks on, as 1 of 201 does.) */
  lemma RateExtremes(tasks: seq<Task>)
    ensures var s := ComputeStats(tasks);
      && (s.total > 0 && s.completed == s.total ==> s.completionRate == 100)
      && (s.completed == 0 ==> s.completionRate == 0)
  {
    var s := ComputeStats(tasks);
    if s.total > 0 && s.completed == s.total {
      RoundAllDone(s.total, s.completionRate);
    }
    if s.total > 0 && s.completed == 0 {
      RoundNoneDone(s.total, s.completionRate);
    }
  }

  /** The dashboard for a single task: 1 total, and 100% when it is
      completed, 0% when it is pending. */
  lemma OneTaskStats(t: Task)
    ensures ComputeStats([t])
         == if t.completed then Dashboard(1, 1, 0, 100) else Dashboard(1, 0, 1, 0)
  {
    assert [t][1..] == [];
    assert CountCompleted([t]) == if t.completed then 1 else 0;
    RateExtremes([t]);
  }

  /** The rounded percentage of a whole is 100. */
  lemma RoundAllDone(t: nat, p: nat)
    requires 0 < t && 2 * t * p <= 201 * t < 2 * t * p + 2 * t
    ensures p == 100
  {
    var w := 2 * t;
    assert w * p < w * 101;
    MulLess(w, p, 101);
    assert w * (p + 1) == w * p + w;
    MulLess(w, 100, p + 1);
  }

  /** The rounded percentage of nothing is 0. */
  lemma RoundNoneDone(t: nat, p: nat)
    requires 0 < t && 2 * t * p <= t
    ensures p == 0
  {
    var w := 2 * t;
    assert w * p < w * 1;
    MulLess(w, p, 1);
  }

  /** A positive factor can be cancelled from a strict inequality. */
  lemma MulLess(z: nat, x: nat, y: nat)
    requires z * x < z * y
    ensures x < y
  {
    if x >= y {
      MulMono(z, y, x);
    }
  }

  /** Replacing one task changes the completed count by the difference of
      the two tasks' states. */
  lemma {:induction false} CountUpdate(tasks: seq<Task>, i: nat, x: Task)
    requires i < |tasks|
    ensures CountCompleted(tasks[i := x]) + (if tasks[i].completed then 1 else 0)
         == CountCompleted(tasks) + (if x.completed then 1 else 0)
  {
    if i > 0 {
      CountUpdate(tasks[1..], i - 1, x);
      assert tasks[i := x][1..] == tasks[1..][i - 1 := x];
    }
  }

  /** Completing a task moves it from pending to completed; reopening it
      moves it back. The total stays. */
  lemma StatsAfterToggle(tasks: seq<Task>, id: int, now: string)
    requires HasId(tasks, id)
    ensures var i := FindIndex(tasks, id).value;
      var before := ComputeStats(tasks);
      var after := ComputeStats(Toggled(tasks, id, now));
      && after.total == before.total
      && (!tasks[i].completed ==> after.completed == before.completed + 1 && after.pending + 1 == before.pending)
      && (tasks[i].completed ==> after.completed + 1 == before.completed && after.pending == before.pending + 1)
  {
    var i := FindIndex(tasks, id).value;
    var r := ToggleTask(tasks, id, now).value;
    assert r == tasks[i := r[i]];
    CountUpdate(tasks, i, r[i]);
  }

  /** An added task is pending: the total and pending counts grow by one. */
  lemma StatsAfterAdd(tasks: seq<Task>, input: string, priority: string, category: string,
                      dueDateInput: string, id: int, now: string)
    requires AddTask(tasks, input, priority, category, dueDateInput, id, now).Success?
    ensures var before := ComputeStats(tasks);
      var after := ComputeStats(AddTask(tasks, input, priority, category, dueDateInput, id, now).value);
      && after.total == before.total + 1
      && after.completed == before.completed
      && after.pending == before.pending + 1
  {
    var r := AddTask(tasks, input, priority, category, dueDateInput, id, now).value;
    assert r[1..] == tasks;
  }
}

=== FILE: store.dfy ===
/** The mutations of `FutureTodoApp.tasks`: add, edit, toggle, delete and
    drag reorder, each a function from the old list to the new one. Where the
    code returns early without touching the list the model returns a
    `Failure`, so the list after the call is `r.GetOr(tasks)`. */
module Store {
  import opened Wrappers
  import opened Text
  import opened Seqs
  import opened Tasks

  /** Why an operation left the list alone. The code warns the user about
      `EmptyText` and returns silently on `NotFound`. */
  datatype Error = EmptyText | NotFound

  /** `input.value || null`: the empty string becomes `null`. */
  function OrNull(value: string): (r: Option<string>)
    ensures r.None? <==> value == ""
    ensures r.Some? ==> r.value == value
  {
    if value == "" then None else Some(value)
  }

  /** `addTask`: trim the input; refuse it when nothing is left; otherwise
      put a fresh pending task in front of the list. `id` and `now` stand
      for `Date.now()` and `new Date().toISOString()`. */
  function AddTask(tasks: seq<Task>, input: string, priority: string, category: string,
                   dueDateInput: string, id: int, now: string): (r: Result<seq<Task>, Error>)
    ensures r.Failure? <==> AllWhitespace(input)
    ensures r.Failure? ==> r.error == EmptyText
    ensures r.Success? ==> |r.value| == |tasks| + 1 && r.value[1..] == tasks
    ensures r.Success? ==>
      && r.value[0].id == id
      && r.value[0].text == Trim(input) && r.value[0].text != ""
      && !r.value[0].completed && r.value[0].completedAt.None?
      && r.value[0].priority == priority && r.value[0].category == category
      && r.value[0].dueDate == OrNull(dueDateInput)
      && r.value[0].createdAt == now
  {
    var text := Trim(input);
    TrimEmptyIff(input);
    if text == "" then Failure(EmptyText)
    else Success([Task(id, text, false, priority, category, OrNull(dueDateInput), now, None)] + tasks)
  }

  /** `after` differs from `before` at most in the four fields the edit
      dialog offers: text, priority, category and due date. */
  predicate SameIdentity(before: Task, after: Task) {
    after.(text := before.text, priority := before.priority, category := before.category,
           dueDate := before.dueDate) == before
  }

  /** `saveEditedTask`: an all-whitespace text is refused first; then the
      first task whose id is `editingTaskId` (which may be `null`) gets the
      dialog's values; when there is none nothing happens. */
  function SaveEditedTask(tasks: seq<Task>, editingTaskId: Option<int>, input: string,
                          priority: string, category: string, dueDateInput: string)
    : (r: Result<seq<Task>, Error>)
    ensures AllWhitespace(input) ==> r == Failure(EmptyText)
    ensures !AllWhitespace(input) ==>
      (r.Failure? <==> editingTaskId.None? || !HasId(tasks, editingTaskId.value))
    ensures r.Failure? && !AllWhitespace(input) ==> r.error == NotFound
    ensures r.Success? ==>
      && editingTaskId.Some? && HasId(tasks, editingTaskId.value)
      && |r.value| == |tasks|
      && var i := FindIndex(tasks, editingTaskId.value).value;
         && SameIdentity(tasks[i], r.value[i])
         && r.value[i].text == Trim(input) && r.value[i].text != ""
         && r.value[i].priority == priority && r.value[i].category == category
         && r.value[i].dueDate == OrNull(dueDateInput)
         && forall k :: 0 <= k < |tasks| && k != i ==> r.value[k] == tasks[k]
  {
    var text := Trim(input);
    TrimEmptyIff(input);
    if text == "" then Failure(EmptyText)
    else if editingTaskId.None? then Failure(NotFound)
    else
      match FindIndex(tasks, editingTaskId.value)
      case None => Failure(NotFound)
      case Some(i) =>
        Success(tasks[i := tasks[i].(text := text, priority := priority, category := category,
                                     dueDate := OrNull(dueDateInput))])
  }

  /** `toggleTask`: flip `completed` of the first task with `id` and stamp
      `completedAt` with `now` when it becomes completed, clear it when it
      becomes pending. An unknown id changes nothing. */
  function ToggleTask(tasks: seq<Task>, id: int, now: string): (r: Result<seq<Task>, Error>)
    ensures r.Failure? <==> !HasId(tasks, id)
    ensures r.Failure? ==> r.error == NotFound
    ensures r.Success? ==>
      && |r.value| == |tasks|
      && var i := FindIndex(tasks, id).value;
         && r.value[i].completed == !tasks[i].completed
         && Stamped(r.value[i])
         && (r.value[i].completed ==> r.value[i].completedAt == Some(now))
         && r.value[i].(completed := tasks[i].completed, completedAt := tasks[i].completedAt) == tasks[i]
         && forall k :: 0 <= k < |tasks| && k != i ==> r.value[k] == tasks[k]
  {
    match FindIndex(tasks, id)
    case None => Failure(NotFound)
    case Some(i) =>
      var done := !tasks[i].completed;
      Success(tasks[i := tasks[i].(completed := done, completedAt := if done then Some(now) else None)])
  }

  /** The list after `ToggleTask`, unchanged when the id is unknown. */
  function Toggled(tasks: seq<Task>, id: int, now: string): seq<Task> {
    ToggleTask(tasks, id, now).GetOr(tasks)
  }

  /** Toggling twice restores `completed`; a task that started pending is
      pending again with `completedAt` cleared, and one that started
      completed carries the second stamp. */
  lemma ToggleTwice(tasks: seq<Task>, id: int, t1: string, t2: string)
    requires HasId(tasks, id)
    ensures var i := FindIndex(tasks, id).value;
      var r := Toggled(Toggled(tasks, id, t1), id, t2);
      && |r| == |tasks|
      && r[i].completed == tasks[i].completed
      && (!tasks[i].completed ==> r[i].completedAt.None?)
      && (tasks[i].completed ==> r[i].completedAt == Some(t2))
      && forall k :: 0 <= k < |tasks| && k != i ==> r[k] == tasks[k]
  {
    var i := FindIndex(tasks, id).value;
    var once := Toggled(tasks, id, t1);
    assert once[i].id == id;
    assert FindIndex(once, id) == Some(i) by {
      assert forall k :: 0 <= k < i ==> once[k] == tasks[k];
    }
  }

  /** For a pending task without a completion stamp, toggling twice gives
      back exactly the list it started from. */
  lemma ToggleTwicePendingRestores(tasks: seq<Task>, id: int, t1: string, t2: string)
    requires HasId(tasks, id)
    requires var i := FindIndex(tasks, id).value;
      !tasks[i].completed && tasks[i].completedAt.None?
    ensures Toggled(Toggled(tasks, id, t1), id, t2) == tasks
  {
    ToggleTwice(tasks, id, t1, t2);
    var i := FindIndex(tasks, id).value;
    var r := Toggled(Toggled(tasks, id, t1), id, t2);
    assert r[i] == tasks[i] by {
      var once := Toggled(tasks, id, t1);
      assert FindIndex(once, id) == Some(i) by {
        assert forall k :: 0 <= k < i ==> once[k] == tasks[k];
      }
    }
  }

  /** The mutation `deleteTask` performs: keep every task whose id differs. */
  function DeleteTask(tasks: seq<Task>, id: int): (r: seq<Task>)
    ensures forall t :: t in r <==> t in tasks && t.id != id
    ensures forall t: Task :: t.id != id ==> multiset(r)[t] == multiset(tasks)[t]
    ensures IsSubsequence(r, tasks)
  {
    var keep := (t: Task) => t.id != id;
    FilterMultisetAll(tasks, keep);
    Filter(tasks, keep)
  }

  /** `s` without its element at `i`; `splice(i, 1)`. */
  function RemoveAt(s: seq<Task>, i: nat): (r: seq<Task>)
    requires i < |s|
    ensures |r| == |s| - 1
    ensures forall k :: 0 <= k < i ==> r[k] == s[k]
    ensures forall k :: i <= k < |r| ==> r[k] == s[k + 1]
  {
    s[..i] + s[i + 1..]
  }

  /** `s` with `x` inserted before position `k`; `splice(k, 0, x)`. */
  function InsertAt(s: seq<Task>, k: nat, x: Task): (r: seq<Task>)
    requires k <= |s|
    ensures |r| == |s| + 1 && r[k] == x
    ensures forall j :: 0 <= j < k ==> r[j] == s[j]
    ensures forall j :: k < j < |r| ==> r[j] == s[j - 1]
  {
    s[..k] + [x] + s[k..]
  }

  /** Deleting with unique ids removes exactly the one task with the id. */
  lemma DeleteUnique(tasks: seq<Task>, i: nat)
    requires UniqueIds(tasks) && i < |tasks|
    ensures DeleteTask(tasks, tasks[i].id) == RemoveAt(tasks, i)
  {
    var id := tasks[i].id;
    var keep := (t: Task) => t.id != id;
    var pre, post := tasks[..i], tasks[i + 1..];
    assert tasks == pre + [tasks[i]] + post;
    assert forall j :: 0 <= j < |pre| ==> pre[j] == tasks[j];
    assert forall j :: 0 <= j < |post| ==> post[j] == tasks[i + 1 + j];
    FilterDropsOne(pre, tasks[i], post, keep);
  }

  /** Deleting an id no task carries changes nothing. */
  lemma DeleteAbsent(tasks: seq<Task>, id: int)
    requires !HasId(tasks, id)
    ensures DeleteTask(tasks, id) == tasks
  {
    FilterKeepsAll(tasks, (t: Task) => t.id != id);
  }

  /** The index `Array.prototype.splice` starts at for an array of `len`
      elements: a negative `start` counts from the end, and the result is
      clamped to `0..len`. */
  function SpliceStart(start: int, len: nat): (k: nat)
    ensures k <= len
    ensures 0 <= start <= len ==> k == start
    ensures start > len ==> k == len
    ensures start < 0 ==> k == if len + start < 0 then 0 else len + start
  {
    if start < 0 then (if len + start < 0 then 0 else len + start)
    else if start > len then len
    else start
  }

  /** Where `reorderTasks` reinserts the dragged task into `rest`: at the end
      with no drop target, otherwise at `splice(findIndex(target), 0, …)`,
      where a missing target's -1 counts from the end. */
  function DropIndex(rest: seq<Task>, target: Option<int>): (k: nat)
    ensures k <= |rest|
  {
    match target
    case None => |rest|
    case Some(tid) =>
      match FindIndex(rest, tid)
      case Some(j) => j
      case None => SpliceStart(-1, |rest|)
  }

  /** `reorderTasks(draggedTaskId, afterElement)`: take the first task with
      the dragged id out of the list and put it back before the drop target,
      or last when there is none. The list is a permutation of the old one,
      and the other tasks keep their relative order. */
  function ReorderTasks(tasks: seq<Task>, draggedId: int, target: Option<int>): (r: seq<Task>)
    ensures !HasId(tasks, draggedId) ==> r == tasks
    ensures |r| == |tasks| && multiset(r) == multiset(tasks)
    ensures HasId(tasks, draggedId) ==>
      var i := FindIndex(tasks, draggedId).value;
      exists k :: 0 <= k < |r| && r[k] == tasks[i] && RemoveAt(r, k) == RemoveAt(tasks, i)
  {
    match FindIndex(tasks, draggedId)
    case None => tasks
    case Some(i) =>
      var rest := RemoveAt(tasks, i);
      var k := DropIndex(rest, target);
      RemoveAtMultiset(tasks, i);
      InsertAtMultiset(rest, k, tasks[i]);
      RemoveInsert(rest, k, tasks[i]);
      InsertAt(rest, k, tasks[i])
  }

  lemma RemoveAtMultiset(s: seq<Task>, i: nat)
    requires i < |s|
    ensures multiset(RemoveAt(s, i)) + multiset{s[i]} == multiset(s)
  {
    assert s == s[..i] + [s[i]] + s[i + 1..];
  }

  lemma InsertAtMultiset(s: seq<Task>, k: nat, x: Task)
    requires k <= |s|
    ensures multiset(InsertAt(s, k, x)) == multiset(s) + multiset{x}
  {
    assert s == s[..k] + s[k..];
  }

  /** Taking out what was just put in gives back the list. */
  lemma RemoveInsert(s: seq<Task>, k: nat, x: Task)
    requires k <= |s|
    ensures RemoveAt(InsertAt(s, k, x), k) == s
  {
  }

  /** Dropped below the last task (no target), the dragged task ends up last
      and the others keep their order. */
  lemma ReorderToEnd(tasks: seq<Task>, draggedId: int)
    requires HasId(tasks, draggedId)
    ensures var i := FindIndex(tasks, draggedId).value;
      var r := ReorderTasks(tasks, draggedId, None);
      r[|r| - 1] == tasks[i] && r[..|r| - 1] == RemoveAt(tasks, i)
  {
  }

  /** Dropped above a task, the dragged task sits immediately before the
      first task of the remaining list that carries the target id. */
  lemma ReorderBeforeTarget(tasks: seq<Task>, draggedId: int, targetId: int)
    requires HasId(tasks, draggedId)
    requires HasId(RemoveAt(tasks, FindIndex(tasks, draggedId).value), targetId)
    ensures var i := FindIndex(tasks, draggedId).value;
      var rest := RemoveAt(tasks, i);
      var j := FindIndex(rest, targetId).value;
      var r := ReorderTasks(tasks, draggedId, Some(targetId));
      && r[j] == tasks[i]
      && r[j + 1] == rest[j] && r[j + 1].id == targetId
      && (forall k :: 0 <= k < j ==> r[k].id != targetId)
      && r[..j] == rest[..j] && r[j + 1..] == rest[j..]
  {
    var i := FindIndex(tasks, draggedId).value;
    var rest := RemoveAt(tasks, i);
    var j := FindIndex(rest, targetId).value;
    var r := InsertAt(rest, j, tasks[i]);
    assert ReorderTasks(tasks, draggedId, Some(targetId)) == r;
    InsertAtSlices(rest, j, tasks[i]);
    forall k | 0 <= k < j
      ensures r[k].id != targetId
    {
      assert r[k] == rest[k];
    }
  }

  /** Inserting at `k` leaves what lies before and after `k` as it was. */
  lemma InsertAtSlices(s: seq<Task>, k: nat, x: Task)
    requires k <= |s|
    ensures InsertAt(s, k, x)[..k] == s[..k]
    ensures InsertAt(s, k, x)[k + 1..] == s[k..]
  {
  }

  /** The as-written behaviour for a drop target that is not in the remaining
      list: `findIndex` yields -1 and `splice(-1, 0, …)` puts the dragged task
      before the last one rather than at the end. */
  lemma ReorderMissingTarget(tasks: seq<Task>, draggedId: int, targetId: int)
    requires HasId(tasks, draggedId) && |tasks| >= 2
    requires !HasId(RemoveAt(tasks, FindIndex(tasks, draggedId).value), targetId)
    ensures var i := FindIndex(tasks, draggedId).value;
      var r := ReorderTasks(tasks, draggedId, Some(targetId));
      && r[|r| - 2] == tasks[i] && r[|r| - 1] == RemoveAt(tasks, i)[|tasks| - 2]
      && r[..|r| - 2] == RemoveAt(tasks, i)[..|tasks| - 2]
  {
    var i := FindIndex(tasks, draggedId).value;
    var rest := RemoveAt(tasks, i);
    assert FindIndex(rest, targetId).None?;
    assert DropIndex(rest, Some(targetId)) == |rest| - 1;
    var r := InsertAt(rest, |rest| - 1, tasks[i]);
    assert ReorderTasks(tasks, draggedId, Some(targetId)) == r;
    assert |rest| == |tasks| - 1 && |r| == |tasks|;
    assert r[|r| - 1] == rest[|rest| - 1];
    InsertAtSlices(rest, |rest| - 1, tasks[i]);
  }
}

=== FILE: tasks.dfy ===
/** The task record kept by `FutureTodoApp` (script.js:198-207) and the
    lookups the operations share. */
module Tasks {
  import opened Wrappers

  /** One to-do item. `id` comes from `Date.now()`; `createdAt` and
      `completedAt` are the ISO strings `toISOString()` produces and are
      treated as opaque; `dueDate` is the date input's value, `None` for
      `null`. Priority and category are the select elements' values, kept as
      strings because the code compares them as strings. */
  datatype Task = Task(
    id: int,
    text: string,
    completed: bool,
    priority: string,
    category: string,
    dueDate: Option<string>,
    createdAt: string,
    completedAt: Option<string>)

  /** `completedAt` is set exactly when the task is completed. */
  predicate Stamped(t: Task) {
    t.completed <==> t.completedAt.Some?
  }

  predicate AllStamped(tasks: seq<Task>) {
    forall i :: 0 <= i < |tasks| ==> Stamped(tasks[i])
  }

  /** No two tasks share an id. The code does not enforce this: two tasks
      created within the same millisecond collide. */
  predicate UniqueIds(tasks: seq<Task>) {
    forall i, j :: 0 <= i < j < |tasks| ==> tasks[i].id != tasks[j].id
  }

  predicate HasId(tasks: seq<Task>, id: int) {
    exists i :: 0 <= i < |tasks| && tasks[i].id == id
  }

  /** `tasks.findIndex(t => t.id === id)`, with `None` for -1: the index of
      the FIRST task carrying `id`. */
  function FindIndex(tasks: seq<Task>, id: int): (r: Option<nat>)
    ensures r.None? <==> !HasId(tasks, id)
    ensures r.Some? ==> r.value < |tasks| && tasks[r.value].id == id
    ensures r.Some? ==> forall k :: 0 <= k < r.value ==> tasks[k].id != id
  {
    if |tasks| == 0 then None
    else if tasks[0].id == id then Some(0)
    else
      match FindIndex(tasks[1..], id)
      case None => None
      case Some(k) => Some(k + 1)
  }
}

=== FILE: text.dfy ===
/** The string primitives the task list relies on: `String.prototype.trim`,
    `toLowerCase` and `includes`. */
module Text {

  /** The characters `trim` strips: the WhiteSpace and LineTerminator code
      points of ECMAScript (tab, vertical tab, form feed, space, no-break space,
      byte order mark, the other Zs space separators, LF, CR, LS and PS). */
  predicate IsWhitespace(c: char) {
    || c == '\t' || c == '\U{000B}' || c == '\U{000C}' || c == ' '
    || c == '\U{00A0}' || c == '\U{FEFF}' || c == '\U{1680}'
    || ('\U{2000}' <= c <= '\U{200A}')
    || c == '\U{202F}' || c == '\U{205F}' || c == '\U{3000}'
    || c == '\n' || c == '\r' || c == '\U{2028}' || c == '\U{2029}'
  }

  /** Every character of `s` is whitespace (vacuously true of ""). */
  predicate AllWhitespace(s: string) {
    forall i :: 0 <= i < |s| ==> IsWhitespace(s[i])
  }

  /** `s` with its leading whitespace removed. */
  function TrimStart(s: string): (r: string)
    ensures |r| <= |s| && r == s[|s| - |r|..]
    ensures r == [] || !IsWhitespace(r[0])
    ensures AllWhitespace(s[..|s| - |r|])
    decreases |s|
  {
    if |s| > 0 && IsWhitespace(s[0]) then
      var r := TrimStart(s[1..]);
      assert s[..|s| - |r|] == [s[0]] + s[1..][..|s| - 1 - |r|];
      r
    else s
  }

  /** `s` with its trailing whitespace removed. */
  function TrimEnd(s: string): (r: string)
    ensures |r| <= |s| && r == s[..|r|]
    ensures r == [] || !IsWhitespace(r[|r| - 1])
    ensures AllWhitespace(s[|r|..])
    decreases |s|
  {
    if |s| > 0 && IsWhitespace(s[|s| - 1]) then
      var r := TrimEnd(s[..|s| - 1]);
      assert s[|r|..] == s[..|s| - 1][|r|..] + [s[|s| - 1]];
      r
    else s
  }

  /** `String.prototype.trim`: the contiguous middle of `s` that neither
      begins nor ends with whitespace, everything around it being whitespace. */
  function Trim(s: string): (r: string)
    ensures |r| <= |s|
    ensures r == [] || (!IsWhitespace(r[0]) && !IsWhitespace(r[|r| - 1]))
  {
    TrimEnd(TrimStart(s))
  }

  /** What `trim` removes is whitespace on both sides and nothing else. */
  lemma TrimIsCut(s: string)
    ensures exists k :: 0 <= k <= |s| - |Trim(s)| && IsCut(s, Trim(s), k)
  {
    var front := TrimStart(s);
    var r := TrimEnd(front);
    var k := |s| - |front|;
    assert s[k..k + |r|] == front[..|r|];
    assert s[k + |r|..] == front[|r|..];
    assert IsCut(s, r, k);
    assert r == Trim(s);
  }

  /** `r` sits at offset `k` of `s` and only whitespace lies around it. */
  predicate IsCut(s: string, r: string, k: int)
    requires 0 <= k <= |s| - |r|
  {
    && s[k..k + |r|] == r
    && AllWhitespace(s[..k])
    && AllWhitespace(s[k + |r|..])
  }

  /** The trimmed text is empty exactly when the input is all whitespace:
      the test `if (!text)` after `trim()` rejects exactly those inputs. */
  lemma TrimEmptyIff(s: string)
    ensures Trim(s) == [] <==> AllWhitespace(s)
  {
    var r := Trim(s);
    TrimIsCut(s);
    var k :| 0 <= k <= |s| - |r| && IsCut(s, r, k);
    if r == [] {
      assert s == s[..k] + s[k..];
      forall i | 0 <= i < |s|
        ensures IsWhitespace(s[i])
      {
        if i < k {
          assert s[i] == s[..k][i];
        } else {
          assert s[i] == s[k..][i - k];
        }
      }
    } else {
      assert s[k] == r[0];
    }
  }

  /** Trimming an already trimmed string changes nothing. */
  lemma TrimIdempotent(s: string)
    ensures Trim(Trim(s)) == Trim(s)
  {
    var r := Trim(s);
    TrimOfTrimmed(r);
  }

  lemma TrimOfTrimmed(r: string)
    requires r == [] || (!IsWhitespace(r[0]) && !IsWhitespace(r[|r| - 1]))
    ensures Trim(r) == r
  {
    if r == [] {
      assert |Trim(r)| <= |r|;
    } else {
      TrimOfTrimmedNonEmpty(r);
    }
  }

  lemma TrimOfTrimmedNonEmpty(r: string)
    requires r != [] && !IsWhitespace(r[0]) && !IsWhitespace(r[|r| - 1])
    ensures Trim(r) == r
  {
    TrimStartStops(r);
    TrimEndStops(r);
    assert TrimEnd(TrimStart(r)) == r;
  }

  lemma TrimStartStops(r: string)
    requires r != [] && !IsWhitespace(r[0])
    ensures TrimStart(r) == r
  {
  }

  lemma TrimEndStops(r: string)
    requires r != [] && !IsWhitespace(r[|r| - 1])
    ensures TrimEnd(r) == r
  {
  }

  /** ASCII `toLowerCase` of one character. */
  function LowerChar(c: char): (d: char)
    ensures 'A' <= c <= 'Z' ==> 'a' <= d <= 'z' && d as int - c as int == 32
    ensures !('A' <= c <= 'Z') ==> d == c
  {
    if 'A' <= c <= 'Z' then (c as int + 32) as char else c
  }

  /** `toLowerCase`, restricted to the ASCII letters. */
  function Lower(s: string): (r: string)
    ensures |r| == |s|
    ensures forall i :: 0 <= i < |s| ==>
      if 'A' <= s[i] <= 'Z' then r[i] as int == s[i] as int + 32 else r[i] == s[i]
    ensures forall i :: 0 <= i < |s| ==> !('A' <= r[i] <= 'Z')
  {
    seq(|s|, i requires 0 <= i < |s| => LowerChar(s[i]))
  }

  /** Lowering twice is lowering once, so a query lowered on input is
      unchanged by a second lowering. */
  lemma LowerIdempotent(s: string)
    ensures Lower(Lower(s)) == Lower(s)
  {
  }

  /** `needle` occurs in `hay` at position `i`. */
  predicate OccursAt(hay: string, needle: string, i: int) {
    0 <= i && i + |needle| <= |hay| && hay[i..i + |needle|] == needle
  }

  predicate StartsWith(s: string, prefix: string) {
    |prefix| <= |s| && s[..|prefix|] == prefix
  }

  /** `hay.includes(needle)`, scanning left to right. */
  predicate Includes(hay: string, needle: string)
    decreases |hay|
  {
    StartsWith(hay, needle) || (|hay| > 0 && Includes(hay[1..], needle))
  }

  /** The scan agrees with the positional definition of a substring. */
  lemma {:induction false} IncludesIff(hay: string, needle: string)
    ensures Includes(hay, needle) <==> exists i :: OccursAt(hay, needle, i)
    decreases |hay|
  {
    if StartsWith(hay, needle) {
      assert OccursAt(hay, needle, 0);
    } else if |hay| > 0 {
      IncludesIff(hay[1..], needle);
      if Includes(hay[1..], needle) {
        var i :| OccursAt(hay[1..], needle, i);
        assert hay[1..][i..i + |needle|] == hay[i + 1..i + 1 + |needle|];
        assert OccursAt(hay, needle, i + 1);
      }
      if exists i :: OccursAt(hay, needle, i) {
        var i :| OccursAt(hay, needle, i);
        assert i != 0;
        assert hay[1..][i - 1..i - 1 + |needle|] == hay[i..i + |needle|];
        assert OccursAt(hay[1..], needle, i - 1);
      }
    }
  }
}

=== FILE: theme.dfy ===
/** The dark/light switch (`loadTheme`, `toggleTheme`). */
module Theme {
  import opened Wrappers

  /** `localStorage.getItem('theme') || 'dark'`: a missing or empty stored
      value falls back to "dark"; any other stored value is used as is. */
  function LoadTheme(stored: Option<string>): (theme: string)
    ensures theme != ""
    ensures stored.Some? && stored.value != "" ==> theme == stored.value
    ensures stored.None? || stored.value == "" ==> theme == "dark"
  {
    match stored
    case Some(s) => if s == "" then "dark" else s
    case None => "dark"
  }

  /** `toggleTheme`: "dark" becomes "light" and every other value "dark". */
  function ToggleTheme(theme: string): (r: string)
    ensures r == "dark" || r == "light"
    ensures r == "light" <==> theme == "dark"
  {
    if theme == "dark" then "light" else "dark"
  }

  /** On the two proper values the switch is its own inverse; anything else
      reaches them after one toggle. */
  lemma ToggleThemeTwice(theme: string)
    ensures theme == "dark" || theme == "light" ==> ToggleTheme(ToggleTheme(theme)) == theme
    ensures ToggleTheme(ToggleTheme(ToggleTheme(theme))) == ToggleTheme(theme)
  {
  }
}

=== FILE: wrappers.dfy ===
/** Option and Result, the two failure-carrying datatypes the model uses for
    JavaScript `null` and for operations that return early without effect. */
module Wrappers {

  /** `None` stands for JavaScript `null`. */
  datatype Option<+T> = None | Some(value: T) {

    /** The carried value, or `default` for `None`. */
    function GetOr(default: T): T {
      match this
      case Some(v) => v
      case None => default
    }
  }

  /** The outcome of an operation that either produces a value or is refused. */
  datatype Result<+T, +E> = Success(value: T) | Failure(error: E) {

    /** The produced value, or `default` when the operation was refused. */
    function GetOr(default: T): T {
      match this
      case Success(v) => v
      case Failure(_) => default
    }
  }
}
